=== FILE: README.md ===
# laravel:lang — a Dafny model of the language publishing command

The `laravel:lang` console command copies bundled translation files into an
application. The files are `auth.php`, `pagination.php`, `passwords.php` and
`validation.php` for each language, plus one `<code>.json` per language. The
command works in these steps:

1. It reads a comma-separated list of language codes, or `all`, from
   `--languages` or from a prompt.
2. It rejects codes that are not a bundled language directory.
3. It asks for confirmation when the request covers as many languages as
   there are bundled directories.
4. For `de` and `de-CH` it asks for the German register.
5. It copies each file, asking before overwriting one that exists unless
   `--force` is given.
6. It reports what it copied, what it skipped and what it could not find.

The model replaces the console and the filesystem with values:

- The console is a finite sequence of answers. Every prompt says how many
  answers it read. When no answer is left, the prompt reports that the
  stream ran out.
- The filesystem is a set of existing paths. Each copy adds its target to
  the set, and each directory creation adds the directory.
- The bundled directories are the listing of the pack root. The listing is
  `None` when the root is not a directory.
- The bundled name table (`languages.php`) is a map parameter.
- The PHP sources live in the package directory (`$this->path`), the JSON
  sources in `../json` beside it, and the targets under the application's
  resource directory (`Env.PackLayout`).
- `handle` is the pure function `Command.Handle`. It returns a `Report`
  holding:
  - the exit status;
  - the copied (source, target) pairs;
  - the created directories;
  - the info, warning and error messages. Messages are tags that carry the
    code or path they are about.

Modules:

- `Text`: the PHP string built-ins used: truthiness, `strtolower`,
  `str_replace`, `explode`, `array_unique`, and filtering. `implode`
  (`Join`) is never called by the command; it is there only to state that
  `explode` loses nothing (`SplitJoin`, `JoinSplit`).
- `Catalog`: `codeWord`, `allLanguages` and the `getLanguages` listing.
- `Prompts`: `askOverwrite`, `askGerman` and their answer-stream loops.
- `Paths`: the source and target paths of the five files of a language.
- `Banner`: `readyMessage`.
- `Command`: `handle`, split into request validation (`Validate`), the gate
  before copying (`Publish`) and the copy loop (`PublishAll`,
  `PublishLanguage`, `PublishFiles`, `CopyAll`, `CopyFile`).

Behaviours of the code worth knowing:

- The publish-all confirmation is asked before the unknown-code check. A
  request with unknown codes can therefore still read a confirmation answer
  before it aborts.
- The confirmation compares sizes, not sets.
- Requesting `all` when no language directory exists does not abort. The
  confirmation is asked, because 0 languages are requested and 0 exist. If
  it is accepted, the loop runs over no language and the command returns 1.
  See `Command.AllWithNothingDiscovered`.

## Model

| member | source | states |
|---|---|---|
| Text.Lower | src/LaravelLang.php:100 | lower-casing keeps the length and lowers each ASCII letter in place, so answers are compared case-insensitively |
| Text.Replace | src/LaravelLang.php:261 | the replacement keeps the length and swaps exactly the chosen character at every position |
| Text.IndexOf | src/LaravelLang.php:264 | gives the position of the first delimiter, or the length when there is none; nothing before it is a delimiter |
| Text.Split | src/LaravelLang.php:84 | `explode` always yields at least one piece, and no piece contains the delimiter (no trimming) |
| Text.SplitJoin | src/LaravelLang.php:84 | joining the pieces of a split with the delimiter gives back the original request string |
| Text.JoinSplit | src/LaravelLang.php:84 | splitting a join of delimiter-free pieces gives back the pieces, including empty ones |
| Text.SplitGlue | src/LaravelLang.php:264 | a delimiter-free prefix becomes part of the first piece and leaves the other pieces alone |
| Text.SplitHead | src/LaravelLang.php:264-266 | the first piece is the text before the first delimiter; a second piece exists exactly when a delimiter occurs; the remaining pieces are the split of the text after it |
| Text.Unique | src/LaravelLang.php:84 | `array_unique` returns no repeats and exactly the same values as its input |
| Text.UniqueExtends | src/LaravelLang.php:84 | deduplication keeps first occurrences: appending entries only appends to the result |
| Text.UniqueOfDistinct | src/LaravelLang.php:84 | a list without repeats is unchanged by deduplication |
| Text.Exclude | src/LaravelLang.php:226-227 | filtering never lengthens the list |
| Text.ExcludeMembers | src/LaravelLang.php:226-227 | the result holds exactly the values of the input that are not filtered |
| Text.ExcludeCounts | src/LaravelLang.php:226-227 | every value that is not filtered is kept as often as it occurs |
| Text.ExcludeAppend | src/LaravelLang.php:225-228 | filtering distributes over concatenation, so kept entries stay in listing order |
| Catalog.Normalize | src/LaravelLang.php:261 | every `-` becomes `_` and every other character is kept in place, so the normalised code has no hyphen |
| Catalog.CodeWord | src/LaravelLang.php:257-275 | `codeWord` is total and never returns an empty (or otherwise false) string |
| Catalog.CodeWordIgnoresSeparator | src/LaravelLang.php:261 | two codes that differ only in `-` versus `_` get the same display name, for example `fr-CH` and `fr_CH` |
| Catalog.CodeWordCases | src/LaravelLang.php:262-274 | the three cases in terms of the first underscore: a usable exact entry; else "<base name> - <second segment>" when the base is known, using only the second segment; else `<unknown>` |
| Catalog.Discover | src/LaravelLang.php:222-231 | `allLanguages` holds exactly the listed directories other than `_alt`, and nothing when the root is not a directory |
| Catalog.DiscoverKeepsListing | src/LaravelLang.php:222-231 | discovery keeps each non-filtered directory as often as the listing has it, and in listing order |
| Catalog.ListLinesFollowDiscovery | src/LaravelLang.php:244-249 | the listing loop prints one "code => name" line for each directory `allLanguages` keeps, in the same order |
| Catalog.Listing | src/LaravelLang.php:236-251 | `getLanguages` fails exactly when the root is not a directory; otherwise it lists each discovered language with its display name |
| Prompts.YesExcludesNo | src/LaravelLang.php:199-205 | no answer counts as both yes and no |
| Prompts.AskYesNo | src/LaravelLang.php:198-206 | skips answers until the first y/yes/n/no in any case, which decides; it reports how many answers it read, and runs out exactly when no such answer exists |
| Prompts.AskOverwrite | src/LaravelLang.php:189-207 | a missing source is reported without a prompt; an absent target or `--force` copies without a prompt; otherwise the first yes copies and the first no keeps the target |
| Prompts.AskGerman | src/LaravelLang.php:209-217 | skips answers until one is "du" in any case or empty, and returns that answer as given |
| Paths.RegisterMovesSourcesOnly | src/LaravelLang.php:116-148 | "du" moves the four PHP sources and the JSON source into the `_alt` subtrees; the targets are `resource_path("lang/<code>/<file>.php")` for the four PHP files and `resource_path("lang/<code>.json")`, whatever the register |
| Paths.TargetsDistinct | src/LaravelLang.php:124-148 | the five targets of a language are five different files, and none is the language directory created before them |
| Banner.ReadyMessage | src/LaravelLang.php:173-187 | prints an empty line, a border, the framed line `#   <message>   #` and the same border; the border is all `#` and as long as the framed line |
| Command.Unknowns | src/LaravelLang.php:86-92 | an entry is reported exactly when it is neither `all` nor discovered; distinct entries give distinct reports |
| Command.Validate | src/LaravelLang.php:84-98 | the entries are `array_unique` of the comma split, so first occurrences in request order; unknown entries are exactly those neither `all` nor discovered; `all` expands to the discovered list; a valid request names only discovered languages, each once; confirmation is due exactly when the sizes match |
| Command.DistinctCount | src/LaravelLang.php:84 | a deduplicated list has as many entries as distinct values |
| Command.UnknownCount | src/LaravelLang.php:84-92 | the number of unknown-language errors equals the number of distinct entries that are neither `all` nor discovered |
| Command.CopyFile | src/LaravelLang.php:140-153 | missing source: one error and no answer read; absent target or force: copied with its info and no answer read; otherwise the first y/yes or n/no decides: yes copies with its info, no keeps the target with one warning, the answers up to it are used up, and with no such answer the run stalls unchanged; the file is then copied, kept or reported missing |
| Command.CopyAll | src/LaravelLang.php:136-153 | at least one answer is used up per kept file, and no answers are gained; the loop keeps one info per copied file, only adds to the copies, warnings, errors and existing paths, and copies only the given files |
| Command.WarnMeansNo | src/LaravelLang.php:198-205 | a file adds a warning only when it is kept, nothing is copied for it, and the last answer it read is a no |
| Command.CopyFileReadsOn | src/LaravelLang.php:140-153 | a file's prompt takes its answers from the front of those it is given, and what it leaves is the rest of them |
| Command.CopyAllReadsOn | src/LaravelLang.php:136-153 | each file's prompt reads on from the answers the previous file left, so the loop leaves the given answers less some at the front |
| Command.CopyAllAsked | src/LaravelLang.php:136-153 | without `--force`, with every source and target present and a y/n answer ready for each file, the i-th file is decided by the i-th answer: yes copies it, no keeps it with a warning, and exactly those answers are used up |
| Command.CopyAllSingle | src/LaravelLang.php:136-144 | the loop over one file is that file's prompt with the `--force` given |
| Command.CopyAllAppend | src/LaravelLang.php:136-153 | the loop over two lists of files is the loop over the first followed, if it finished, by the loop over the second from where it stopped, with the same `--force` |
| Command.CopyFileAsksFirst | src/LaravelLang.php:195-205 | without `--force`, a file that already exists is overwritten only after a yes and kept only after a no, so at least one answer is read per overwritten or kept file |
| Command.CopyAllAsksFirst | src/LaravelLang.php:136-153 | without `--force`, the file loop reads at least one answer per existing file it overwrites and per file it keeps |
| Command.CopyAllForced | src/LaravelLang.php:195-196 | with `--force`, the file loop always finishes and reads no answer |
| Command.CopyAllSettles | src/LaravelLang.php:136-153 | when the file loop finishes, each of its files was copied, kept with a warning or reported missing |
| Command.PublishFiles | src/LaravelLang.php:124-153 | the language's target directory exists afterwards; at least one answer is used up per kept file; every new copy is one of the language's five files for the chosen register, and when it finishes each of them was copied, kept or reported missing |
| Command.PublishLanguage | src/LaravelLang.php:115-154 | only `de` and `de-CH` read a register answer; an empty answer selects the formal files and "du" the informal ones, a stream without such an answer stalls; a finished `de`/`de-CH` used up at least one answer more than its kept files; new copies are files of the selected register; when it finishes the language directory exists and each file was copied, kept or reported missing |
| Command.PublishAll | src/LaravelLang.php:115-154 | a finished loop used up at least one answer per kept file and per `de`/`de-CH`, and the directory of every requested language exists; one info per copy, and it only adds to copies, warnings, errors and paths |
| Command.PublishLanguageReadsOn | src/LaravelLang.php:115-153 | a language reads its register answer and then its files' answers from the front of those it is given |
| Command.PublishAllReadsOn | src/LaravelLang.php:115-154 | each language reads on from the answers the previous one left, so no answer is read twice or skipped back over |
| Command.PublishFilesCopies | src/LaravelLang.php:124-153 | a language's files go through the file loop with the `--force` given, after its directory is created when it was missing |
| Command.PublishLanguageCopies | src/LaravelLang.php:115-153 | a language hands its files on with the `--force` given: other languages the formal files, `de`/`de-CH` the register their answer selects, on the answers after it, and they stall when no register answer comes |
| Command.PublishAllSingle | src/LaravelLang.php:115-154 | the loop over one language is that language's step with the `--force` given |
| Command.PublishLanguageAsksFirst | src/LaravelLang.php:115-153 | without `--force`, a language reads at least one answer per existing file it overwrites and per file it keeps |
| Command.PublishAllAsksFirst | src/LaravelLang.php:115-154 | without `--force`, the language loop reads at least one answer per existing file it overwrites and per file it keeps, so no existing file is overwritten without a yes |
| Command.PublishAllAppend | src/LaravelLang.php:115-154 | the loop over two lists of languages is the loop over the first followed, if it finished, by the loop over the second from where it stopped, with the same `--force` |
| Command.CopyAllUnasked | src/LaravelLang.php:140-153 | with all sources present and either `--force` or a fresh install, every file is copied in order and no answer is read |
| Command.PublishOtherUnasked | src/LaravelLang.php:115-153 | a language other than `de`/`de-CH` with its sources present, under `--force` or on a fresh install, reads no answer and copies its five formal files in order |
| Command.PublishLanguageUnasked | src/LaravelLang.php:115-153 | under `--force` or on a fresh install, only `de` and `de-CH` read an answer, exactly the register answer, and they copy the files of the register it selects |
| Command.PublishAllForced | src/LaravelLang.php:115-154 | with `--force`, no German language and all sources present, the loop copies every file of every language in order and reads no answer |
| Command.Publish | src/LaravelLang.php:84-170 | the exit code is 0 or 1; a 0 exit copies and creates nothing; every copied file has exactly one "file added" info; errors reported before stay first |
| Command.UnknownCodesAbort | src/LaravelLang.php:86-113 | unknown entries come first among the new errors, one each; if there is any, nothing is copied and the exit code is 0 whatever the answers, unless the confirmation finds no answer |
| Command.ReportIsLoop | src/LaravelLang.php:115-170 | once the request is valid and any confirmation accepted, the report holds the copy loop's copies, created directories, infos, warnings and errors, with exit 1 when the loop finished |
| Command.ConfirmationGate | src/LaravelLang.php:98-115 | when confirmation is due, a first answer other than y/yes cancels with exit 0 and nothing else happens, and an accepted one uses up exactly that answer before the loop; when it is not due, no answer is read for it |
| Command.ExitOneIffLoopRan | src/LaravelLang.php:98-170 | exit 1 exactly when there is no unknown entry, the confirmation (if due) is accepted and the copy loop, run on the answers after the confirmation, reaches its end; a valid, accepted request never exits 0 |
| Command.ForcePublishesEverything | src/LaravelLang.php:115-170 | with `--force`, a valid and confirmed request without German languages, and all sources present: every file is copied in order, with an info each, no warning, no new error, exit 1 |
| Command.AllWithNothingDiscovered | src/LaravelLang.php:94-105 | `all` with no discovered language asks the confirmation and, if accepted, returns 1 with nothing copied |
| Command.Handle | src/LaravelLang.php:64-84 | a usable `--languages` value is the request, with all answers left for the run; otherwise an empty or "0" answer cancels with exit 0, and any other first answer is the request, with the answers after it left for the run; a missing pack root is reported first; an exhausted stream stops the run; exit 0 means nothing copied, and infos match copies |

## Left out

- Filesystem effects are not modelled as real operations. `copy` is taken to succeed, as the command never checks it. `mkdir` is taken to succeed, and its mode 0775 is not modelled.
- `glob` ordering: the pack root's listing is an input taken in the order `glob` returns it.
- Existence checks: the listing and the set of existing paths are independent inputs, and the filesystem does not change while a prompt waits.
- Console output is not part of the report. That covers `line`, the prompt texts (including the display name inside the German question), the printing order of infos, warnings and errors, and the listing lines, which `Catalog.Listing` computes on its own.
- Translation through `__()` is not modelled. Messages are tags, and the placeholder is the untranslated `<unknown>`.
- The contents of `languages.php` are not modelled. The table is a parameter.
- `src/LangServiceProvider.php` only registers the command with the framework and is not part of this model.
- Unbounded recursion in `askOverwrite` and `askGerman`: both read a finite answer stream. When no decisive answer is left, the run ends with `OutOfInput`, which has no exit code. The same status ends the run when the request prompt or the confirmation finds no answer, because the console aborts there.
- Answers are the values the console's `ask` returns, after any trimming the console framework does. An empty entry is the empty string, which PHP's `==` treats like the `null` the console returns for it.
- PHP loose comparison between numeric-looking strings (`in_array`, `==`) is not modelled. Codes are compared as plain strings.
- `strlen` counts bytes, but the banner width here counts characters. This only matters for non-ASCII messages.
- `strtolower` lowers ASCII letters only, as PHP 8.2 and later do, and as earlier versions do under the default C locale.
- `Command.PublishAllForced`: stated with `--force` only. The fresh-install case without `--force` is stated for one language at a time, in `Command.PublishOtherUnasked` and `Command.PublishLanguageUnasked`, because the model does not prove that different languages never share a target. Those lemmas reach the loop through `Command.PublishAllSingle` and `Command.PublishAllAppend`, which make the loop the language steps in order with the same `--force`; the model has no closed statement for the whole loop in that case.
- `Command.ForcePublishesEverything`: stated only for requests without `de`/`de-CH`. With those, the outcome depends on the register answers. `Command.PublishLanguageUnasked` states it for one language, and `Command.PublishAllSingle` with `Command.PublishAllAppend` carry each language's step, with the same `--force`, into the loop and `Command.ReportIsLoop` carries the loop into the report; the model has no closed statement for a whole request naming them.
- `Command.Publish`: the banner of a completed run is not part of the report. `Banner.ReadyMessage` states it on its own.

=== FILE: banner.dfy ===
/** The framed message printed when the copy loop has finished (`readyMessage`). */
module Banner {

  /**
    The four lines printed: an empty line, a border, the message framed as
    "#   <message>   #", and the same border again. The border is made of
    `#` only and is exactly as long as the framed line.
   */
  method ReadyMessage(message: string) returns (lines: seq<string>)
    ensures |lines| == 4
    ensures lines[0] == ""
    ensures lines[2] == "#   " + message + "   #"
    ensures lines[3] == lines[1]
    ensures |lines[1]| == |lines[2]|
    ensures forall i :: 0 <= i < |lines[1]| ==> lines[1][i] == '#'
  {
    var framed := "#   " + message + "   #";
    var width := |framed|;
    var row := "";
    var i := 1;
    while i <= width
      invariant 1 <= i <= width + 1
      invariant |row| == i - 1
      invariant forall j :: 0 <= j < |row| ==> row[j] == '#'
    {
      row := row + "#";
      i := i + 1;
    }
    lines := ["", row, framed, row];
  }
}

=== FILE: catalog.dfy ===
/**
  The language catalog: the display name of a language code (`codeWord`),
  the discovery of the bundled language directories (`allLanguages`) and
  the listing shown before the language prompt (`getLanguages`).

  The bundled table `languages.php` is a parameter: a map from normalised
  code (underscore form) to display name.
 */
module Catalog {
  import opened Maybe
  import opened Text

  /** The placeholder shown for a code the table cannot name (`'<'.__('unknown').'>'`). */
  const UnknownWord := "<unknown>"

  /** Directory names under the pack root that are not languages (`$filter`). */
  const Filter: seq<string> := ["_alt"]

  /** Hyphens become underscores, so `de-CH` and `de_CH` look up the same entry. */
  function Normalize(code: string): (w: string)
    ensures |w| == |code|
    ensures forall i :: 0 <= i < |code| ==> w[i] == (if code[i] == '-' then '_' else code[i])
    ensures '-' !in w
  {
    Replace(code, '-', '_')
  }

  /** `codeWord`: the table's name for the code, else "<base name> - <region>", else the placeholder. */
  function CodeWord(table: map<string, string>, code: string): (r: string)
    ensures !Falsy(r)
  {
    var word := Normalize(code);
    var show := if word in table then table[word] else "";
    var split := Split(word, '_');
    var show' :=
      if Falsy(show) && |split| > 1 && split[0] in table
      then table[split[0]] + " - " + split[1]
      else show;
    if Falsy(show') then UnknownWord else show'
  }

  /** Two codes that differ only in using `-` or `_` at some positions get the same display name. */
  lemma CodeWordIgnoresSeparator(table: map<string, string>, a: string, b: string)
    requires |a| == |b|
    requires forall i :: 0 <= i < |a| ==> a[i] == b[i] || (a[i] in "-_" && b[i] in "-_")
    ensures CodeWord(table, a) == CodeWord(table, b)
  {
    var na, nb := Normalize(a), Normalize(b);
    forall i | 0 <= i < |a|
      ensures na[i] == nb[i]
    {
      assert a[i] in "-_" ==> a[i] == '-' || a[i] == '_';
      assert b[i] in "-_" ==> b[i] == '-' || b[i] == '_';
    }
    assert na == nb;
  }

  /**
    The three cases of `codeWord`, stated through the position `k` of the
    first underscore of the normalised code rather than through `explode`:
    a usable exact entry wins; otherwise a known base before the first
    underscore gives "<base name> - <second segment>", where the second
    segment runs up to the next underscore; otherwise the placeholder.
   */
  lemma {:induction false} CodeWordCases(table: map<string, string>, code: string)
    ensures var w := Normalize(code);
            var r := CodeWord(table, code);
            && (w in table && !Falsy(table[w]) ==> r == table[w])
            && (w !in table || Falsy(table[w]) ==>
                  var k := IndexOf(w, '_');
                  && (k < |w| && w[..k] in table ==>
                        r == table[w[..k]] + " - " + w[k + 1..][..IndexOf(w[k + 1..], '_')])
                  && (k == |w| || w[..k] !in table ==> r == UnknownWord))
  {
    var w := Normalize(code);
    var split := Split(w, '_');
    var k := IndexOf(w, '_');
    SplitHead(w, '_');
    assert split[0] == w[..k];
    if k < |w| {
      var after := w[k + 1..];
      SplitHead(after, '_');
      assert |split| > 1;
      assert split[1] == Split(after, '_')[0] == after[..IndexOf(after, '_')];
    } else {
      assert |split| == 1;
    }
  }

  /** `allLanguages`: the directories under the pack root, in listing order, without the filtered names. */
  function Discover(root: Option<seq<string>>): (langs: seq<string>)
    ensures root.None? ==> langs == []
    ensures root.Some? ==> forall d :: d in langs <==> d in root.value && d !in Filter
  {
    match root
    case None => []
    case Some(dirs) =>
      ExcludeMembers(dirs, Filter);
      Exclude(dirs, Filter)
  }

  /** Discovery keeps every non-filtered directory as often as the listing has it, and in the same order. */
  lemma DiscoverKeepsListing(dirs: seq<string>, more: seq<string>, d: string)
    requires d !in Filter
    ensures multiset(Discover(Some(dirs)))[d] == multiset(dirs)[d]
    ensures Discover(Some(dirs + more)) == Discover(Some(dirs)) + Discover(Some(more))
  {
    ExcludeCounts(dirs, Filter, d);
    ExcludeAppend(dirs, more, Filter);
  }

  /** One line of the listing printed before the language prompt. */
  function ListLine(table: map<string, string>, code: string): string
  {
    code + " => " + CodeWord(table, code)
  }

  /** The listing loop of `getLanguages`: one line per directory that is not filtered. */
  function ListLines(table: map<string, string>, dirs: seq<string>): seq<string>
  {
    if dirs == [] then []
    else if dirs[0] in Filter then ListLines(table, dirs[1..])
    else [ListLine(table, dirs[0])] + ListLines(table, dirs[1..])
  }

  /** The listing walks the directories with the same filter as `allLanguages`, so it has one line per discovered language, in order. */
  lemma {:induction false} ListLinesFollowDiscovery(table: map<string, string>, dirs: seq<string>)
    ensures |ListLines(table, dirs)| == |Exclude(dirs, Filter)|
    ensures forall i :: 0 <= i < |ListLines(table, dirs)| ==>
              ListLines(table, dirs)[i] == ListLine(table, Exclude(dirs, Filter)[i])
  {
    if dirs != [] {
      ListLinesFollowDiscovery(table, dirs[1..]);
      var rest, kept := ListLines(table, dirs[1..]), Exclude(dirs[1..], Filter);
      var lines, all := ListLines(table, dirs), Exclude(dirs, Filter);
      if dirs[0] in Filter {
        assert all == [] + kept == kept;
      } else {
        assert lines == [ListLine(table, dirs[0])] + rest;
        assert all == [dirs[0]] + kept;
        forall i | 0 <= i < |lines|
          ensures lines[i] == ListLine(table, all[i])
        {
          if i > 0 {
            assert lines[i] == rest[i - 1];
            assert all[i] == kept[i - 1];
          }
        }
      }
    }
  }

  /**
    `getLanguages`: nothing when the pack root is not a directory (the
    caller reports the error), otherwise one line per discovered language,
    in the order `allLanguages` returns them.
   */
  function Listing(table: map<string, string>, root: Option<seq<string>>): (lines: Option<seq<string>>)
    ensures lines.None? <==> root.None?
    ensures lines.Some? ==>
              && |lines.value| == |Discover(root)|
              && forall i :: 0 <= i < |lines.value| ==> lines.value[i] == ListLine(table, Discover(root)[i])
  {
    match root
    case None => None
    case Some(dirs) =>
      ListLinesFollowDiscovery(table, dirs);
      Some(ListLines(table, dirs))
  }
}

=== FILE: command.dfy ===
/**
  The `laravel:lang` command (`handle`): read the requested languages,
  validate them against the discovered language directories, ask for the
  publish-all confirmation, then publish each language's five files.

  The console is a finite stream of answers, the filesystem a set of
  existing paths, and the run's outcome a `Report`: the exit status, the
  files copied, the directories created, and the info, warning and error
  messages in the order they were produced.
 */
module Command {
  import opened Maybe
  import opened Text
  import opened Catalog
  import opened Prompts
  import opened Paths

  /** The request word that stands for every discovered language. */
  const All := "all"

  /** The messages of a run, as tags carrying the code or file they are about. */
  datatype Msg =
    | FolderUnresolved
    | Canceled
    | LanguageNotFound(code: string)
    | NothingPublished
    | FileNotFound(path: string)
    | FileAdded(path: string)
    | FileKept(path: string)

  /** The `--languages=` and `--force` options. */
  datatype Options = Options(languages: Option<string>, force: bool)

  /**
    What the command finds on disk: the pack root's subdirectories (None
    when it is not a directory), the package's source directory, the
    application's resource directory, and every existing path.
   */
  datatype Env = Env(packRoot: Option<seq<string>>, packDir: string, resourceDir: string, existing: set<string>)
  {
    /** PHP sources in the package directory, JSON sources in `../json` beside it. */
    function PackLayout(): Layout
    {
      Installed(packDir, resourceDir)
    }
  }

  /** `Exit(code)` is the value `handle` returns; `OutOfInput` means a prompt found no answer left. */
  datatype Status = Exit(code: int) | OutOfInput

  datatype Report = Report(
    status: Status,
    copied: seq<Job>,
    created: seq<string>,
    infos: seq<Msg>,
    warns: seq<Msg>,
    errors: seq<Msg>)

  /** The state threaded through the copy loop. */
  datatype Run = Run(
    answers: seq<string>,
    existing: set<string>,
    copied: seq<Job>,
    created: seq<string>,
    infos: seq<Msg>,
    warns: seq<Msg>,
    errors: seq<Msg>)

  /** A copy loop step either goes on or stops because a prompt had no answer left. */
  datatype Progress = Going(run: Run) | Stalled(run: Run)

  /** The validated request: distinct entries, the unknown ones, the languages to publish, and whether to confirm. */
  datatype Plan = Plan(entries: seq<string>, unknown: seq<string>, langs: seq<string>, confirm: bool)

  /** One "file added" info per copied file, in copy order. */
  predicate InfoPerCopy(copied: seq<Job>, infos: seq<Msg>)
  {
    && |infos| == |copied|
    && forall i :: 0 <= i < |copied| ==> infos[i] == FileAdded(copied[i].target)
  }

  /** `after` has no more answers left than `before`, and only adds to its copies, warnings, errors and existing paths. */
  predicate Grows(before: Run, after: Run)
  {
    && |after.answers| <= |before.answers|
    && before.copied <= after.copied
    && before.warns <= after.warns
    && before.errors <= after.errors
    && before.existing <= after.existing
  }

  /** What `after` has left of the answers is what `before` had, less some answers at the front. */
  predicate ReadOn(before: Run, after: Run)
  {
    && |after.answers| <= |before.answers|
    && after.answers == before.answers[|before.answers| - |after.answers|..]
  }

  /** Reading on twice is reading on. */
  lemma ReadOnChain(a: Run, b: Run, c: Run)
    requires ReadOn(a, b) && ReadOn(b, c)
    ensures ReadOn(a, c)
  {
    var n, m := |a.answers| - |b.answers|, |b.answers| - |c.answers|;
    assert c.answers == b.answers[m..] == a.answers[n..][m..] == a.answers[n + m..];
  }

  /** How many answers were read between `before` and `after`. */
  function AnswersRead(before: Run, after: Run): int
  {
    |before.answers| - |after.answers|
  }

  /** What `after` holds beyond its prefix `before`. */
  function Since<T>(before: seq<T>, after: seq<T>): seq<T>
  {
    if |before| <= |after| then after[|before|..] else []
  }

  lemma SinceSplit<T>(a: seq<T>, b: seq<T>, c: seq<T>)
    requires a <= b <= c
    ensures Since(a, c) == Since(a, b) + Since(b, c)
  {
    assert c[|a|..] == c[|a|..|b|] + c[|b|..];
  }

  /** Two stretches of a run make one; their answers read and warnings add up. */
  lemma GrowsChain(a: Run, b: Run, c: Run)
    requires Grows(a, b) && Grows(b, c)
    ensures Grows(a, c)
    ensures |Since(a.warns, c.warns)| == |Since(a.warns, b.warns)| + |Since(b.warns, c.warns)|
  {
    SinceSplit(a.warns, b.warns, c.warns);
  }

  /** `job` was dealt with between `before` and `after`: copied, kept with a warning, or reported missing. */
  predicate Settled(job: Job, before: Run, after: Run)
  {
    || job in Since(before.copied, after.copied)
    || FileKept(job.target) in Since(before.warns, after.warns)
    || FileNotFound(job.source) in Since(before.errors, after.errors)
  }

  /** A job settled in either of two consecutive stretches is settled over both. */
  lemma SettledWidens(job: Job, a: Run, b: Run, c: Run)
    requires Grows(a, b) && Grows(b, c)
    ensures Settled(job, a, b) || Settled(job, b, c) ==> Settled(job, a, c)
  {
    SinceSplit(a.copied, b.copied, c.copied);
    SinceSplit(a.warns, b.warns, c.warns);
    SinceSplit(a.errors, b.errors, c.errors);
  }

  /** No target exists yet and no two jobs share one. */
  predicate FreshTargets(jobs: seq<Job>, existing: set<string>)
  {
    && (forall i :: 0 <= i < |jobs| ==> jobs[i].target !in existing)
    && (forall i, k :: 0 <= i < k < |jobs| ==> jobs[i].target != jobs[k].target)
  }

  /** None of a language's files is installed yet. */
  predicate Uninstalled(layout: Layout, lang: string, existing: set<string>)
  {
    forall t :: t in Targets(layout, lang) ==> t !in existing
  }

  /** Every source file of one language exists. */
  predicate SourcesPresent(layout: Layout, reg: Register, lang: string, existing: set<string>)
  {
    forall j :: j in Jobs(layout, reg, lang) ==> j.source in existing
  }

  function NotFound(codes: seq<string>): seq<Msg>
  {
    seq(|codes|, i requires 0 <= i < |codes| => LanguageNotFound(codes[i]))
  }

  /** The entries that are neither `all` nor a discovered language, in request order. */
  function Unknowns(entries: seq<string>, discovered: seq<string>): (u: seq<string>)
    ensures forall x :: x in u <==> x in entries && x != All && x !in discovered
    ensures NoDups(entries) ==> NoDups(u)
  {
    if entries == [] then []
    else
      assert entries == [entries[0]] + entries[1..];
      var rest := Unknowns(entries[1..], discovered);
      assert NoDups(entries) ==> NoDups(entries[1..]) && entries[0] !in entries[1..];
      if entries[0] != All && entries[0] !in discovered then [entries[0]] + rest else rest
  }

  /**
    Lines 84-98 of `handle`: split on commas without trimming, deduplicate,
    collect the unknown entries, expand `all`, and decide whether the
    publish-all confirmation is due, which compares sizes only.
   */
  function Validate(request: string, discovered: seq<string>): (p: Plan)
    ensures p.entries == Unique(Split(request, ','))
    ensures NoDups(p.entries)
    ensures forall x :: x in p.entries <==> x in Split(request, ',')
    ensures forall x :: x in p.unknown <==> x in Split(request, ',') && x != All && x !in discovered
    ensures NoDups(p.unknown)
    ensures All in Split(request, ',') ==> p.langs == discovered
    ensures All !in Split(request, ',') ==> p.langs == p.entries
    ensures p.unknown == [] ==> forall l :: l in p.langs ==> l in discovered
    ensures NoDups(discovered) ==> NoDups(p.langs)
    ensures p.confirm <==> |p.langs| == |discovered|
  {
    var entries := Unique(Split(request, ','));
    var langs := if All in entries then discovered else entries;
    Plan(entries, Unknowns(entries, discovered), langs, |langs| == |discovered|)
  }

  /** A list without repeats has as many elements as its set. */
  lemma {:induction false} DistinctCount(xs: seq<string>)
    requires NoDups(xs)
    ensures |set x | x in xs| == |xs|
  {
    if xs != [] {
      var tail := xs[1..];
      assert NoDups(tail);
      DistinctCount(tail);
      assert xs[0] !in tail;
      assert (set x | x in xs) == (set x | x in tail) + {xs[0]};
    }
  }

  /** One error per distinct unknown entry: as many as there are distinct entries that are neither `all` nor discovered. */
  lemma UnknownCount(request: string, discovered: seq<string>)
    ensures |Validate(request, discovered).unknown|
            == |set x | x in Split(request, ',') && x != All && x !in discovered|
  {
    var u := Validate(request, discovered).unknown;
    DistinctCount(u);
    assert (set x | x in u) == (set x | x in Split(request, ',') && x != All && x !in discovered);
  }

  /**
    `askOverwrite` for one file, followed by the copy and its info when it
    says to copy. A missing source adds one error and reads no answer; a
    target that is absent, or `--force`, copies without reading an answer;
    otherwise the first yes or no among the answers decides: yes copies, no
    keeps the target with a warning, and the answers up to it are used up.
   */
  function CopyFile(job: Job, force: bool, run: Run): (p: Progress)
    ensures job.source !in run.existing ==>
              p == Going(run.(errors := run.errors + [FileNotFound(job.source)]))
    ensures job.source in run.existing && (job.target !in run.existing || force) ==>
              && p.Going?
              && p.run.answers == run.answers
              && p.run.existing == run.existing + {job.target}
              && p.run.copied == run.copied + [job]
              && p.run.infos == run.infos + [FileAdded(job.target)]
              && p.run.warns == run.warns && p.run.errors == run.errors
    ensures job.source in run.existing && job.target in run.existing && !force ==>
              match AskYesNo(run.answers)
              case Exhausted => p == Stalled(run)
              case Got(yes, n) =>
                && p.Going?
                && p.run.answers == run.answers[n..]
                && p.run.errors == run.errors
                && (yes ==>
                      && p.run.copied == run.copied + [job]
                      && p.run.infos == run.infos + [FileAdded(job.target)]
                      && p.run.warns == run.warns)
                && (!yes ==>
                      && p.run.copied == run.copied
                      && p.run.infos == run.infos
                      && p.run.warns == run.warns + [FileKept(job.target)])
    ensures p.Going? ==> Settled(job, run, p.run)
    ensures AnswersRead(run, p.run) >= |Since(run.warns, p.run.warns)|
    ensures InfoPerCopy(run.copied, run.infos) ==> InfoPerCopy(p.run.copied, p.run.infos)
    ensures p.run.copied == run.copied || p.run.copied == run.copied + [job]
    ensures p.run.copied == run.copied + [job] ==> job.target in p.run.existing
    ensures Grows(run, p.run)
  {
    match AskOverwrite(job.source, job.target, run.existing, force, run.answers)
    case SourceMissing =>
      Going(run.(errors := run.errors + [FileNotFound(job.source)]))
    case Overwrite(n) =>
      Going(run.(answers := run.answers[n..],
                 existing := run.existing + {job.target},
                 copied := run.copied + [job],
                 infos := run.infos + [FileAdded(job.target)]))
    case KeepExisting(n) =>
      Going(run.(answers := run.answers[n..], warns := run.warns + [FileKept(job.target)]))
    case Undecided =>
      Stalled(run)
  }

  /** Keeping a target after the `n`-th answer leaves that answer just before the unread ones. */
  lemma KeptAfterNo(run: Run, kept: Run, n: nat, target: string)
    requires 1 <= n <= |run.answers| && IsNo(run.answers[n - 1])
    requires kept == run.(answers := run.answers[n..], warns := run.warns + [FileKept(target)])
    ensures |run.answers| > |kept.answers| && IsNo(run.answers[|run.answers| - |kept.answers| - 1])
  {
  }

  /** A file adds a warning only when it is kept, and then the last answer it read is a no. */
  lemma WarnMeansNo(job: Job, force: bool, run: Run)
    ensures var p := CopyFile(job, force, run);
            p.run.warns != run.warns ==>
              && p.run.warns == run.warns + [FileKept(job.target)]
              && p.run.copied == run.copied
              && |run.answers| > |p.run.answers|
              && IsNo(run.answers[|run.answers| - |p.run.answers| - 1])
  {
    var p := CopyFile(job, force, run);
    match AskOverwrite(job.source, job.target, run.existing, force, run.answers)
    case KeepExisting(n) =>
      assert job.source in run.existing && job.target in run.existing && !force;
      KeptAfterNo(run, p.run, n, job.target);
    case SourceMissing =>
      assert p.run.warns == run.warns;
    case Overwrite(n) =>
      assert p.run.warns == run.warns;
    case Undecided =>
      assert p.run.warns == run.warns;
  }

  /**
    The inner loop over a language's files: every kept file used up at least
    one answer, and every new copy is one of `jobs`. `CopyAllReadsOn` shows
    each file's prompt reads on from the answers the previous file left.
   */
  function CopyAll(jobs: seq<Job>, force: bool, run: Run): (p: Progress)
    ensures InfoPerCopy(run.copied, run.infos) ==> InfoPerCopy(p.run.copied, p.run.infos)
    ensures Grows(run, p.run)
    ensures AnswersRead(run, p.run) >= |Since(run.warns, p.run.warns)|
    ensures forall j :: j in Since(run.copied, p.run.copied) ==> j in jobs
  {
    if jobs == [] then Going(run)
    else
      match CopyFile(jobs[0], force, run)
      case Stalled(r) => Stalled(r)
      case Going(r) =>
        var p := CopyAll(jobs[1..], force, r);
        SinceSplit(run.copied, r.copied, p.run.copied);
        GrowsChain(run, r, p.run);
        p
  }

  /** The files whose answer accepts the overwrite, in order. */
  function Approved(jobs: seq<Job>, answers: seq<string>): seq<Job>
    requires |answers| >= |jobs|
  {
    if jobs == [] then []
    else (if IsYes(answers[0]) then [jobs[0]] else []) + Approved(jobs[1..], answers[1..])
  }

  /** The warnings for the files whose answer declines the overwrite, in order. */
  function Declined(jobs: seq<Job>, answers: seq<string>): seq<Msg>
    requires |answers| >= |jobs|
  {
    if jobs == [] then []
    else (if IsNo(answers[0]) then [FileKept(jobs[0].target)] else []) + Declined(jobs[1..], answers[1..])
  }

  lemma Associative<T>(a: seq<T>, b: seq<T>, c: seq<T>)
    ensures a + b + c == a + (b + c)
  {
  }

  /** Without `--force`, a file whose source and target exist is decided by the first answer when that is a yes or a no. */
  lemma CopyFileAsked(job: Job, run: Run)
    requires job.source in run.existing && job.target in run.existing
    requires run.answers != [] && (IsYes(run.answers[0]) || IsNo(run.answers[0]))
    ensures var p := CopyFile(job, false, run);
            && p.Going?
            && p.run.answers == run.answers[1..]
            && p.run.copied == run.copied + (if IsYes(run.answers[0]) then [job] else [])
            && p.run.warns == run.warns + (if IsNo(run.answers[0]) then [FileKept(job.target)] else [])
            && p.run.errors == run.errors
            && run.existing <= p.run.existing
  {
    YesExcludesNo(run.answers[0]);
    assert AskYesNo(run.answers) == Got(IsYes(run.answers[0]), 1);
  }

  /**
    Without `--force`, with every source and every target present and a
    yes or no ready for each file, the i-th file is decided by the i-th
    answer: yes copies it, no keeps it with a warning.
   */
  lemma {:induction false} CopyAllAsked(jobs: seq<Job>, run: Run)
    requires forall j :: j in jobs ==> j.source in run.existing && j.target in run.existing
    requires |run.answers| >= |jobs|
    requires forall i :: 0 <= i < |jobs| ==> IsYes(run.answers[i]) || IsNo(run.answers[i])
    ensures var p := CopyAll(jobs, false, run);
            && p.Going?
            && p.run.answers == run.answers[|jobs|..]
            && p.run.copied == run.copied + Approved(jobs, run.answers)
            && p.run.warns == run.warns + Declined(jobs, run.answers)
            && p.run.errors == run.errors
  {
    if jobs == [] {
      assert run.copied + [] == run.copied && run.warns + [] == run.warns;
    } else {
      var a, rest := run.answers, jobs[1..];
      assert jobs[0] in jobs;
      CopyFileAsked(jobs[0], run);
      var r := CopyFile(jobs[0], false, run).run;
      assert CopyAll(jobs, false, run) == CopyAll(rest, false, r);
      forall j | j in rest
        ensures j.source in r.existing && j.target in r.existing
      {
        assert j in jobs;
      }
      forall i | 0 <= i < |rest|
        ensures IsYes(r.answers[i]) || IsNo(r.answers[i])
      {
        assert r.answers[i] == a[i + 1];
      }
      CopyAllAsked(rest, r);
      AskedGlue(jobs, run, r, CopyAll(rest, false, r).run);
    }
  }

  /** The first file's outcome followed by the rest's outcomes is the outcome of all files. */
  lemma AskedGlue(jobs: seq<Job>, run: Run, r: Run, p: Run)
    requires jobs != [] && |run.answers| >= |jobs|
    requires r.answers == run.answers[1..]
    requires r.copied == run.copied + (if IsYes(run.answers[0]) then [jobs[0]] else [])
    requires r.warns == run.warns + (if IsNo(run.answers[0]) then [FileKept(jobs[0].target)] else [])
    requires p.answers == r.answers[|jobs| - 1..]
    requires p.copied == r.copied + Approved(jobs[1..], r.answers)
    requires p.warns == r.warns + Declined(jobs[1..], r.answers)
    ensures p.answers == run.answers[|jobs|..]
    ensures p.copied == run.copied + Approved(jobs, run.answers)
    ensures p.warns == run.warns + Declined(jobs, run.answers)
  {
    var a := run.answers;
    assert a[1..][|jobs| - 1..] == a[|jobs|..];
    var c0 := if IsYes(a[0]) then [jobs[0]] else [];
    var w0 := if IsNo(a[0]) then [FileKept(jobs[0].target)] else [];
    var c1, w1 := Approved(jobs[1..], a[1..]), Declined(jobs[1..], a[1..]);
    assert Approved(jobs, a) == c0 + c1;
    assert Declined(jobs, a) == w0 + w1;
    Associative(run.copied, c0, c1);
    Associative(run.warns, w0, w1);
  }

  /** When the inner loop finishes, every one of its files has been copied, kept or reported missing. */
  lemma {:induction false} CopyAllSettles(jobs: seq<Job>, force: bool, run: Run)
    ensures CopyAll(jobs, force, run).Going? ==>
              forall j :: j in jobs ==> Settled(j, run, CopyAll(jobs, force, run).run)
  {
    if jobs != [] && CopyFile(jobs[0], force, run).Going? {
      var r := CopyFile(jobs[0], force, run).run;
      var p := CopyAll(jobs[1..], force, r);
      CopyAllSettles(jobs[1..], force, r);
      if p.Going? {
        forall j | j in jobs
          ensures Settled(j, run, p.run)
        {
          SettledWidens(j, run, r, p.run);
          if j != jobs[0] {
            assert j in jobs[1..];
          }
        }
      }
    }
  }

  /** Create the language's target directory when it is missing, then publish its five files. */
  function PublishFiles(lang: string, reg: Register, force: bool, layout: Layout, run: Run): (p: Progress)
    ensures InfoPerCopy(run.copied, run.infos) ==> InfoPerCopy(p.run.copied, p.run.infos)
    ensures Grows(run, p.run)
    ensures LangDir(layout, lang) in p.run.existing
    ensures AnswersRead(run, p.run) >= |Since(run.warns, p.run.warns)|
    ensures forall j :: j in Since(run.copied, p.run.copied) ==> j in Jobs(layout, reg, lang)
    ensures p.Going? ==> forall j :: j in Jobs(layout, reg, lang) ==> Settled(j, run, p.run)
  {
    var dir := LangDir(layout, lang);
    var ready :=
      if dir in run.existing then run
      else run.(existing := run.existing + {dir}, created := run.created + [dir]);
    CopyAllSettles(Jobs(layout, reg, lang), force, ready);
    var p := CopyAll(Jobs(layout, reg, lang), force, ready);
    assert Grows(run, ready);
    GrowsChain(run, ready, p.run);
    p
  }

  /**
    One iteration of the language loop. Only `de` and `de-CH` are asked for
    a register; an empty answer keeps the formal files and "du" selects the
    informal ones. Every new copy is a file of the selected register, and
    when the iteration finishes the language directory exists and each of
    its files has been copied, kept or reported missing.
   */
  function PublishLanguage(lang: string, force: bool, layout: Layout, run: Run): (p: Progress)
    ensures InfoPerCopy(run.copied, run.infos) ==> InfoPerCopy(p.run.copied, p.run.infos)
    ensures Grows(run, p.run)
    ensures p.Going? ==> LangDir(layout, lang) in p.run.existing
    ensures AnswersRead(run, p.run) >= |Since(run.warns, p.run.warns)|
    ensures p.Going? && German(lang) ==> AnswersRead(run, p.run) >= |Since(run.warns, p.run.warns)| + 1
    ensures !German(lang) ==>
              && (forall j :: j in Since(run.copied, p.run.copied) ==> j in Jobs(layout, Formal, lang))
              && (p.Going? ==> forall j :: j in Jobs(layout, Formal, lang) ==> Settled(j, run, p.run))
    ensures German(lang) ==>
              match AskGerman(run.answers)
              case Exhausted => p == Stalled(run)
              case Got(alt, n) =>
                var reg := if alt == "" then Formal else Informal;
                && (forall j :: j in Since(run.copied, p.run.copied) ==> j in Jobs(layout, reg, lang))
                && (p.Going? ==> forall j :: j in Jobs(layout, reg, lang) ==> Settled(j, run, p.run))
  {
    if German(lang) then
      match AskGerman(run.answers)
      case Exhausted => Stalled(run)
      case Got(alt, n) =>
        var reg := if Lower(alt) == "du" then Informal else Formal;
        PublishFiles(lang, reg, force, layout, run.(answers := run.answers[n..]))
    else
      PublishFiles(lang, Formal, force, layout, run)
  }

  /** How many of `langs` are asked the register question. */
  function Germans(langs: seq<string>): nat
  {
    if langs == [] then 0 else (if German(langs[0]) then 1 else 0) + Germans(langs[1..])
  }

  /**
    The language loop. When it finishes it has used up at least one answer
    per kept file and per `de`/`de-CH`, and every requested language's
    directory exists. `PublishAllReadsOn` shows each language reads on from
    the answers the previous one left.
   */
  function PublishAll(langs: seq<string>, force: bool, layout: Layout, run: Run): (p: Progress)
    ensures InfoPerCopy(run.copied, run.infos) ==> InfoPerCopy(p.run.copied, p.run.infos)
    ensures Grows(run, p.run)
    ensures AnswersRead(run, p.run) >= |Since(run.warns, p.run.warns)|
    ensures p.Going? ==> AnswersRead(run, p.run) >= |Since(run.warns, p.run.warns)| + Germans(langs)
    ensures p.Going? ==> forall l :: l in langs ==> LangDir(layout, l) in p.run.existing
  {
    if langs == [] then Going(run)
    else
      match PublishLanguage(langs[0], force, layout, run)
      case Stalled(r) => Stalled(r)
      case Going(r) =>
        var p := PublishAll(langs[1..], force, layout, r);
        GrowsChain(run, r, p.run);
        assert forall l :: l in langs ==> l == langs[0] || l in langs[1..];
        p
  }

  /**
    The loop over `a + b` is the loop over `a` followed, when that
    finishes, by the loop over `b` from the run it left, with the same
    `--force`.
   */
  lemma {:induction false} PublishAllAppend(a: seq<string>, b: seq<string>, force: bool, layout: Layout, run: Run)
    ensures PublishAll(a + b, force, layout, run) ==
              match PublishAll(a, force, layout, run)
              case Stalled(r) => Stalled(r)
              case Going(r) => PublishAll(b, force, layout, r)
  {
    if a == [] {
      assert a + b == b;
    } else {
      assert (a + b)[0] == a[0] && (a + b)[1..] == a[1..] + b;
      match PublishLanguage(a[0], force, layout, run)
      case Stalled(r) =>
      case Going(r) => PublishAllAppend(a[1..], b, force, layout, r);
    }
  }

  /** The file loop over a single file is that file's prompt. */
  lemma CopyAllSingle(job: Job, force: bool, run: Run)
    ensures CopyAll([job], force, run) == CopyFile(job, force, run)
  {
    assert [job][1..] == [];
  }

  /**
    The file loop over `a + b` is the loop over `a` followed, if it
    finished, by the loop over `b` from where it stopped, with the same
    `--force`.
   */
  lemma {:induction false} CopyAllAppend(a: seq<Job>, b: seq<Job>, force: bool, run: Run)
    ensures CopyAll(a + b, force, run) ==
              match CopyAll(a, force, run)
              case Stalled(r) => Stalled(r)
              case Going(r) => CopyAll(b, force, r)
  {
    if a == [] {
      assert a + b == b;
    } else {
      assert (a + b)[0] == a[0] && (a + b)[1..] == a[1..] + b;
      match CopyFile(a[0], force, run)
      case Stalled(r) =>
      case Going(r) => CopyAllAppend(a[1..], b, force, r);
    }
  }

  /**
    A language's files go through the file loop with the `--force` given,
    once its directory is created when it was missing.
   */
  lemma PublishFilesCopies(lang: string, reg: Register, force: bool, layout: Layout, run: Run)
    ensures var dir := LangDir(layout, lang);
            var ready := if dir in run.existing then run
                         else run.(existing := run.existing + {dir}, created := run.created + [dir]);
            PublishFiles(lang, reg, force, layout, run) == CopyAll(Jobs(layout, reg, lang), force, ready)
  {
  }

  /**
    A language hands its files to `PublishFiles` with the `--force` given:
    other languages the formal ones, `de`/`de-CH` the register their
    answer selects, on the answers after it.
   */
  lemma PublishLanguageCopies(lang: string, force: bool, layout: Layout, run: Run)
    ensures !German(lang) ==> PublishLanguage(lang, force, layout, run) == PublishFiles(lang, Formal, force, layout, run)
    ensures German(lang) ==>
              match AskGerman(run.answers)
              case Exhausted => PublishLanguage(lang, force, layout, run) == Stalled(run)
              case Got(alt, n) =>
                PublishLanguage(lang, force, layout, run) ==
                  PublishFiles(lang, if alt == "" then Formal else Informal, force, layout, run.(answers := run.answers[n..]))
  {
  }

  /** The language loop over a single language is that language's step. */
  lemma PublishAllSingle(lang: string, force: bool, layout: Layout, run: Run)
    ensures PublishAll([lang], force, layout, run) == PublishLanguage(lang, force, layout, run)
  {
    assert [lang][1..] == [];
  }

  /** How many of `copied` overwrite one of the `existing` paths. */
  function Overwrites(copied: seq<Job>, existing: set<string>): nat
  {
    if copied == [] then 0
    else (if copied[0].target in existing then 1 else 0) + Overwrites(copied[1..], existing)
  }

  lemma {:induction false} OverwritesAppend(a: seq<Job>, b: seq<Job>, existing: set<string>)
    ensures Overwrites(a + b, existing) == Overwrites(a, existing) + Overwrites(b, existing)
  {
    if a != [] {
      assert (a + b)[0] == a[0] && (a + b)[1..] == a[1..] + b;
      OverwritesAppend(a[1..], b, existing);
    } else {
      assert a + b == b;
    }
  }

  lemma {:induction false} OverwritesGrow(copied: seq<Job>, small: set<string>, large: set<string>)
    requires small <= large
    ensures Overwrites(copied, small) <= Overwrites(copied, large)
  {
    if copied != [] {
      OverwritesGrow(copied[1..], small, large);
    }
  }

  /**
    Without `--force`, a file that already exists is only overwritten after
    a yes for it, and only kept after a no: the prompt reads at least one
    answer per overwritten and per kept file.
   */
  lemma CopyFileAsksFirst(job: Job, run: Run)
    ensures var p := CopyFile(job, false, run);
            AnswersRead(run, p.run) >= |Since(run.warns, p.run.warns)| + Overwrites(Since(run.copied, p.run.copied), run.existing)
  {
    var p := CopyFile(job, false, run);
    if p.run.copied == run.copied + [job] {
      assert Since(run.copied, p.run.copied) == [job];
      assert Overwrites([job], run.existing) == if job.target in run.existing then 1 else 0;
      if job.target in run.existing {
        assert job.source in run.existing;
        assert AskYesNo(run.answers).Got?;
      }
    } else {
      assert Since(run.copied, p.run.copied) == [];
    }
  }

  /**
    Without `--force`, the file loop reads at least one answer per file it
    overwrites or keeps: no existing file is overwritten without a yes.
   */
  lemma {:induction false} CopyAllAsksFirst(jobs: seq<Job>, run: Run)
    ensures var p := CopyAll(jobs, false, run);
            AnswersRead(run, p.run) >= |Since(run.warns, p.run.warns)| + Overwrites(Since(run.copied, p.run.copied), run.existing)
  {
    if jobs == [] {
      assert Since(run.copied, run.copied) == [];
    } else {
      CopyFileAsksFirst(jobs[0], run);
      match CopyFile(jobs[0], false, run)
      case Stalled(r) =>
      case Going(r) =>
        var p := CopyAll(jobs[1..], false, r);
        assert CopyAll(jobs, false, run) == p;
        CopyAllAsksFirst(jobs[1..], r);
        AsksFirstChain(run, r, p.run);
    }
  }

  /** The answer count of two stretches of a run adds up. */
  lemma AsksFirstChain(a: Run, b: Run, c: Run)
    requires Grows(a, b) && Grows(b, c)
    requires AnswersRead(a, b) >= |Since(a.warns, b.warns)| + Overwrites(Since(a.copied, b.copied), a.existing)
    requires AnswersRead(b, c) >= |Since(b.warns, c.warns)| + Overwrites(Since(b.copied, c.copied), b.existing)
    ensures AnswersRead(a, c) >= |Since(a.warns, c.warns)| + Overwrites(Since(a.copied, c.copied), a.existing)
  {
    SinceSplit(a.warns, b.warns, c.warns);
    SinceSplit(a.copied, b.copied, c.copied);
    OverwritesAppend(Since(a.copied, b.copied), Since(b.copied, c.copied), a.existing);
    OverwritesGrow(Since(b.copied, c.copied), a.existing, b.existing);
  }

  /** Without `--force`, a language overwrites no existing file without a yes for it. */
  lemma PublishLanguageAsksFirst(lang: string, layout: Layout, run: Run)
    ensures var p := PublishLanguage(lang, false, layout, run);
            AnswersRead(run, p.run) >= |Since(run.warns, p.run.warns)| + Overwrites(Since(run.copied, p.run.copied), run.existing)
  {
    var asked := run;
    if German(lang) {
      match AskGerman(run.answers)
      case Exhausted =>
        assert Since(run.copied, run.copied) == [];
        return;
      case Got(alt, n) =>
        asked := run.(answers := run.answers[n..]);
    }
    var reg := if German(lang) && Lower(AskGerman(run.answers).value) == "du" then Informal else Formal;
    assert PublishLanguage(lang, false, layout, run) == PublishFiles(lang, reg, false, layout, asked);
    var dir := LangDir(layout, lang);
    var ready := if dir in asked.existing then asked
                 else asked.(existing := asked.existing + {dir}, created := asked.created + [dir]);
    PublishFilesCopies(lang, reg, false, layout, asked);
    CopyAllAsksFirst(Jobs(layout, reg, lang), ready);
    OverwritesGrow(Since(ready.copied, PublishFiles(lang, reg, false, layout, asked).run.copied), run.existing, ready.existing);
  }

  /**
    Without `--force`, the language loop reads at least one answer per file
    it overwrites or keeps: no existing file is overwritten without a yes.
   */
  lemma {:induction false} PublishAllAsksFirst(langs: seq<string>, layout: Layout, run: Run)
    ensures var p := PublishAll(langs, false, layout, run);
            AnswersRead(run, p.run) >= |Since(run.warns, p.run.warns)| + Overwrites(Since(run.copied, p.run.copied), run.existing)
  {
    if langs == [] {
      assert Since(run.copied, run.copied) == [];
    } else {
      PublishLanguageAsksFirst(langs[0], layout, run);
      match PublishLanguage(langs[0], false, layout, run)
      case Stalled(r) =>
      case Going(r) =>
        var p := PublishAll(langs[1..], false, layout, r);
        assert PublishAll(langs, false, layout, run) == p;
        PublishAllAsksFirst(langs[1..], layout, r);
        AsksFirstChain(run, r, p.run);
    }
  }

  /** With `--force`, the file loop asks nothing: it finishes and reads no answer. */
  lemma {:induction false} CopyAllForced(jobs: seq<Job>, run: Run)
    ensures CopyAll(jobs, true, run).Going?
    ensures CopyAll(jobs, true, run).run.answers == run.answers
  {
    if jobs != [] {
      var p := CopyFile(jobs[0], true, run);
      assert p.Going? && p.run.answers == run.answers;
      assert CopyAll(jobs, true, run) == CopyAll(jobs[1..], true, p.run);
      CopyAllForced(jobs[1..], p.run);
    }
  }

  /** A file's prompt reads answers from the front of those it is given. */
  lemma CopyFileReadsOn(job: Job, force: bool, run: Run)
    ensures ReadOn(run, CopyFile(job, force, run).run)
  {
    match AskOverwrite(job.source, job.target, run.existing, force, run.answers)
    case Overwrite(n) =>
      assert n <= |run.answers|;
      DropIsSuffix(run.answers, n);
    case KeepExisting(n) =>
      DropIsSuffix(run.answers, n);
    case SourceMissing =>
    case Undecided =>
  }

  /** Dropping `n` answers leaves the last `|s| - n` of them. */
  lemma DropIsSuffix(s: seq<string>, n: nat)
    requires n <= |s|
    ensures s[n..] == s[|s| - |s[n..]|..]
  {
  }

  /** Each file's prompt reads on from the answers the previous file left. */
  lemma {:induction false} CopyAllReadsOn(jobs: seq<Job>, force: bool, run: Run)
    ensures ReadOn(run, CopyAll(jobs, force, run).run)
  {
    if jobs != [] {
      CopyFileReadsOn(jobs[0], force, run);
      var first := CopyFile(jobs[0], force, run);
      if first.Going? {
        CopyAllReadsOn(jobs[1..], force, first.run);
        ReadOnChain(run, first.run, CopyAll(jobs[1..], force, first.run).run);
      }
    }
  }

  /** Creating the language directory reads no answer, so its files read on from the answers given. */
  lemma PublishFilesReadsOn(lang: string, reg: Register, force: bool, layout: Layout, run: Run)
    ensures ReadOn(run, PublishFiles(lang, reg, force, layout, run).run)
  {
    var dir := LangDir(layout, lang);
    var ready := if dir in run.existing then run
                 else run.(existing := run.existing + {dir}, created := run.created + [dir]);
    CopyAllReadsOn(Jobs(layout, reg, lang), force, ready);
  }

  /** One language reads its register answer, then its files' answers, from the front of those it is given. */
  lemma PublishLanguageReadsOn(lang: string, force: bool, layout: Layout, run: Run)
    ensures ReadOn(run, PublishLanguage(lang, force, layout, run).run)
  {
    if German(lang) {
      match AskGerman(run.answers)
      case Exhausted =>
      case Got(alt, n) =>
        var reg := if Lower(alt) == "du" then Informal else Formal;
        var asked := run.(answers := run.answers[n..]);
        assert ReadOn(run, asked) by {
          assert run.answers[n..] == run.answers[|run.answers| - |run.answers[n..]|..];
        }
        PublishFilesReadsOn(lang, reg, force, layout, asked);
        ReadOnChain(run, asked, PublishFiles(lang, reg, force, layout, asked).run);
    } else {
      PublishFilesReadsOn(lang, Formal, force, layout, run);
    }
  }

  /** Each language reads on from the answers the previous language left. */
  lemma {:induction false} PublishAllReadsOn(langs: seq<string>, force: bool, layout: Layout, run: Run)
    ensures ReadOn(run, PublishAll(langs, force, layout, run).run)
  {
    if langs != [] {
      PublishLanguageReadsOn(langs[0], force, layout, run);
      var first := PublishLanguage(langs[0], force, layout, run);
      if first.Going? {
        PublishAllReadsOn(langs[1..], force, layout, first.run);
        ReadOnChain(run, first.run, PublishAll(langs[1..], force, layout, first.run).run);
      }
    }
  }

  /** Every job of a list of languages, in loop order, with the formal sources. */
  function FormalJobs(layout: Layout, langs: seq<string>): seq<Job>
  {
    if langs == [] then [] else Jobs(layout, Formal, langs[0]) + FormalJobs(layout, langs[1..])
  }

  /** `p` went on from `run` without reading an answer, added exactly `jobs` to the copies, and no warning or error. */
  predicate CopiedSilently(p: Progress, run: Run, jobs: seq<Job>)
  {
    && p.Going?
    && p.run.answers == run.answers
    && p.run.copied == run.copied + jobs
    && p.run.warns == run.warns
    && p.run.errors == run.errors
    && run.existing <= p.run.existing
  }

  /** Two silent stretches of copying make one. */
  lemma CopiedSilentlyChain(p1: Progress, p2: Progress, run: Run, first: seq<Job>, second: seq<Job>)
    requires CopiedSilently(p1, run, first)
    requires CopiedSilently(p2, p1.run, second)
    ensures CopiedSilently(p2, run, first + second)
  {
    assert run.copied + first + second == run.copied + (first + second);
  }

  /**
    With every source present, and either `--force` or a fresh install
    (no target exists yet, no two jobs share one), each file is copied
    without reading an answer.
   */
  lemma {:induction false} CopyAllUnasked(jobs: seq<Job>, force: bool, run: Run)
    requires forall j :: j in jobs ==> j.source in run.existing
    requires force || FreshTargets(jobs, run.existing)
    ensures CopiedSilently(CopyAll(jobs, force, run), run, jobs)
  {
    if jobs == [] {
      assert run.copied + jobs == run.copied;
    } else {
      var rest := jobs[1..];
      assert jobs[0] in jobs;
      CopyFileUnasked(jobs[0], force, run);
      var p := CopyFile(jobs[0], force, run);
      assert CopyAll(jobs, force, run) == CopyAll(rest, force, p.run);
      forall j | j in rest
        ensures j.source in p.run.existing
      {
        assert j in jobs;
      }
      if !force {
        FreshTail(jobs, run.existing);
      }
      CopyAllUnasked(rest, force, p.run);
      CopiedSilentlyChain(p, CopyAll(rest, force, p.run), run, [jobs[0]], rest);
      assert [jobs[0]] + rest == jobs;
    }
  }

  /** A file whose source exists, under `--force` or with its target absent, is copied without reading an answer. */
  lemma CopyFileUnasked(job: Job, force: bool, run: Run)
    requires job.source in run.existing
    requires force || job.target !in run.existing
    ensures CopiedSilently(CopyFile(job, force, run), run, [job])
    ensures CopyFile(job, force, run).run.existing == run.existing + {job.target}
  {
  }

  /** Once the first file is copied, the remaining files still have fresh targets. */
  lemma FreshTail(jobs: seq<Job>, existing: set<string>)
    requires jobs != [] && FreshTargets(jobs, existing)
    ensures FreshTargets(jobs[1..], existing + {jobs[0].target})
  {
    var rest := jobs[1..];
    forall i | 0 <= i < |rest|
      ensures rest[i].target !in existing + {jobs[0].target}
    {
      assert rest[i] == jobs[i + 1];
    }
    forall i, k | 0 <= i < k < |rest|
      ensures rest[i].target != rest[k].target
    {
      assert rest[i] == jobs[i + 1] && rest[k] == jobs[k + 1];
    }
  }


  /** On a fresh install, the files of a language have fresh targets, also once its directory is created. */
  lemma FreshJobs(layout: Layout, reg: Register, lang: string, before: set<string>, after: set<string>)
    requires Uninstalled(layout, lang, before)
    requires after <= before + {LangDir(layout, lang)}
    ensures FreshTargets(Jobs(layout, reg, lang), after)
  {
    RegisterMovesSourcesOnly(layout, lang);
    TargetsDistinct(layout, lang);
    var jobs := Jobs(layout, reg, lang);
    forall i | 0 <= i < |jobs|
      ensures jobs[i].target !in after
    {
      assert jobs[i].target == Targets(layout, lang)[i];
    }
    forall i, k | 0 <= i < k < |jobs|
      ensures jobs[i].target != jobs[k].target
    {
      assert jobs[i].target == Targets(layout, lang)[i] && jobs[k].target == Targets(layout, lang)[k];
    }
  }

  /**
    A language other than `de` and `de-CH` with its formal sources present
    reads no answer and copies its five formal files, with `--force` and
    also without it on a fresh install.
   */
  lemma PublishOtherUnasked(lang: string, force: bool, layout: Layout, run: Run)
    requires !German(lang)
    requires SourcesPresent(layout, Formal, lang, run.existing)
    requires force || Uninstalled(layout, lang, run.existing)
    ensures CopiedSilently(PublishLanguage(lang, force, layout, run), run, Jobs(layout, Formal, lang))
  {
    var dir := LangDir(layout, lang);
    var ready := if dir in run.existing then run
                 else run.(existing := run.existing + {dir}, created := run.created + [dir]);
    if !force {
      FreshJobs(layout, Formal, lang, run.existing, ready.existing);
    }
    CopyAllUnasked(Jobs(layout, Formal, lang), force, ready);
  }

  /**
    With every source present, and either `--force` or a fresh install, a
    language other than `de` and `de-CH` reads no answer and copies its
    five formal files; `de` and `de-CH` read exactly the register answer
    and copy the files of the register it selects, or stall when no such
    answer comes.
   */
  lemma PublishLanguageUnasked(lang: string, force: bool, layout: Layout, run: Run)
    requires SourcesPresent(layout, Formal, lang, run.existing)
    requires German(lang) ==> SourcesPresent(layout, Informal, lang, run.existing)
    requires force || Uninstalled(layout, lang, run.existing)
    ensures var p := PublishLanguage(lang, force, layout, run);
            && (!German(lang) ==>
                  && p.Going?
                  && p.run.answers == run.answers
                  && p.run.copied == run.copied + Jobs(layout, Formal, lang)
                  && p.run.warns == run.warns && p.run.errors == run.errors)
            && (German(lang) ==>
                  match AskGerman(run.answers)
                  case Exhausted => p == Stalled(run)
                  case Got(alt, n) =>
                    && p.Going?
                    && p.run.answers == run.answers[n..]
                    && p.run.copied == run.copied + Jobs(layout, if alt == "" then Formal else Informal, lang)
                    && p.run.warns == run.warns && p.run.errors == run.errors)
  {
    var dir := LangDir(layout, lang);
    if German(lang) {
      match AskGerman(run.answers)
      case Exhausted =>
      case Got(alt, n) =>
        var reg := if Lower(alt) == "du" then Informal else Formal;
        var asked := run.(answers := run.answers[n..]);
        var ready := if dir in asked.existing then asked
                     else asked.(existing := asked.existing + {dir}, created := asked.created + [dir]);
        if !force {
          FreshJobs(layout, reg, lang, run.existing, ready.existing);
        }
        CopyAllUnasked(Jobs(layout, reg, lang), force, ready);
    } else {
      PublishOtherUnasked(lang, force, layout, run);
    }
  }

  /** Copying only adds paths, so sources present before stay present. */
  lemma SourcesStayPresent(langs: seq<string>, layout: Layout, before: set<string>, after: set<string>)
    requires before <= after
    requires forall l :: l in langs ==> SourcesPresent(layout, Formal, l, before)
    ensures forall l :: l in langs ==> SourcesPresent(layout, Formal, l, after)
  {
  }

  /** With `--force`, no German language and every source present, the loop copies every file of every language and reads no answer. */
  lemma {:induction false} PublishAllForced(langs: seq<string>, layout: Layout, run: Run)
    requires forall l :: l in langs ==> !German(l)
    requires forall l :: l in langs ==> SourcesPresent(layout, Formal, l, run.existing)
    ensures CopiedSilently(PublishAll(langs, true, layout, run), run, FormalJobs(layout, langs))
  {
    if langs == [] {
      assert run.copied + [] == run.copied;
    } else {
      var lang := langs[0];
      assert lang in langs;
      PublishOtherUnasked(lang, true, layout, run);
      var p := PublishLanguage(lang, true, layout, run);
      SourcesStayPresent(langs[1..], layout, run.existing, p.run.existing);
      PublishAllForced(langs[1..], layout, p.run);
      CopiedSilentlyChain(p, PublishAll(langs[1..], true, layout, p.run), run,
                          Jobs(layout, Formal, lang), FormalJobs(layout, langs[1..]));
    }
  }

  /** A run that stops before the copy loop: nothing copied, nothing created. */
  function Halt(status: Status, errors: seq<Msg>): Report
  {
    Report(status, [], [], [], [], errors)
  }

  /** A run whose copy loop started. */
  function Finish(status: Status, run: Run): Report
  {
    Report(status, run.copied, run.created, run.infos, run.warns, run.errors)
  }

  /**
    Lines 84-170 of `handle`, once a non-empty request is known; `pre` are
    the errors already reported.
   */
  function Publish(request: string, force: bool, env: Env, answers: seq<string>, pre: seq<Msg>): (r: Report)
    ensures r.status.Exit? ==> r.status.code == 0 || r.status.code == 1
    ensures r.status == Exit(0) ==> r.copied == [] && r.created == [] && r.infos == [] && r.warns == []
    ensures InfoPerCopy(r.copied, r.infos)
    ensures pre <= r.errors
  {
    var discovered := Discover(env.packRoot);
    var plan := Validate(request, discovered);
    var errors := pre + NotFound(plan.unknown);
    if plan.confirm && answers == [] then
      Halt(OutOfInput, errors)
    else if plan.confirm && !IsYes(answers[0]) then
      Halt(Exit(0), errors + [Canceled])
    else if plan.unknown != [] then
      Halt(Exit(0), errors + [NothingPublished])
    else
      var rest := if plan.confirm then answers[1..] else answers;
      match PublishAll(plan.langs, force, env.PackLayout(), Run(rest, env.existing, [], [], [], [], errors))
      case Going(run) => Finish(Exit(1), run)
      case Stalled(run) => Finish(OutOfInput, run)
  }

  /**
    Unknown entries are reported first, one error each, whatever happens
    next; if there is any, the run copies nothing and returns 0 whatever the
    answers (unless the confirmation it asks first finds no answer).
   */
  lemma UnknownCodesAbort(request: string, force: bool, env: Env, answers: seq<string>, pre: seq<Msg>)
    ensures var plan := Validate(request, Discover(env.packRoot));
            var r := Publish(request, force, env, answers, pre);
            && |r.errors| >= |pre| + |plan.unknown|
            && r.errors[..|pre| + |plan.unknown|] == pre + NotFound(plan.unknown)
            && (plan.unknown != [] ==>
                  && r.copied == [] && r.created == [] && r.infos == [] && r.warns == []
                  && (r.status == Exit(0) || (plan.confirm && answers == [] && r.status == OutOfInput)))
  {
    var plan := Validate(request, Discover(env.packRoot));
    var errors := pre + NotFound(plan.unknown);
    var r := Publish(request, force, env, answers, pre);
    assert errors <= r.errors;
  }

  /**
    The publish-all confirmation: when it is due, any first answer other
    than y/yes cancels with exit 0 and nothing copied, and an accepted one
    uses up exactly that answer before the loop; when it is not due, no
    answer is read for it.
   */
  lemma ConfirmationGate(request: string, force: bool, env: Env, answers: seq<string>, pre: seq<Msg>)
    ensures var plan := Validate(request, Discover(env.packRoot));
            var r := Publish(request, force, env, answers, pre);
            && (plan.confirm && answers != [] && !IsYes(answers[0]) ==>
                  r == Halt(Exit(0), pre + NotFound(plan.unknown) + [Canceled]))
            && (plan.confirm && plan.unknown == [] && answers != [] && IsYes(answers[0]) ==>
                  r.status != Exit(0) &&
                  PublishAll(plan.langs, force, env.PackLayout(), Run(answers[1..], env.existing, [], [], [], [], pre)).run.copied == r.copied)
            && (!plan.confirm && plan.unknown == [] ==>
                  r.status != Exit(0) &&
                  PublishAll(plan.langs, force, env.PackLayout(), Run(answers, env.existing, [], [], [], [], pre)).run.copied == r.copied)
  {
    var plan := Validate(request, Discover(env.packRoot));
    if plan.unknown == [] {
      assert pre + NotFound(plan.unknown) == pre;
    }
  }

  /**
    `handle` returns 1 exactly when the copy loop runs to its end: no
    unknown entry, the confirmation (if due) accepted, and no prompt of the
    loop left without an answer.
   */
  lemma ExitOneIffLoopRan(request: string, force: bool, env: Env, answers: seq<string>, pre: seq<Msg>)
    ensures var plan := Validate(request, Discover(env.packRoot));
            var accepted := plan.confirm ==> answers != [] && IsYes(answers[0]);
            var rest := if plan.confirm && answers != [] then answers[1..] else answers;
            var r := Publish(request, force, env, answers, pre);
            && (r.status == Exit(1) <==>
                  && plan.unknown == [] && accepted
                  && PublishAll(plan.langs, force, env.PackLayout(), Run(rest, env.existing, [], [], [], [], pre)).Going?)
            && (plan.unknown == [] && accepted ==> r.status != Exit(0))
  {
    var plan := Validate(request, Discover(env.packRoot));
    if plan.unknown == [] {
      assert pre + NotFound(plan.unknown) == pre;
    }
  }

  /**
    After the request is valid and any confirmation accepted, the report is
    the copy loop's: its copies, created directories, infos, warnings and
    errors (after those reported before), with exit 1 when the loop
    finished and no exit code when a prompt found no answer.
   */
  lemma ReportIsLoop(request: string, force: bool, env: Env, answers: seq<string>, pre: seq<Msg>)
    ensures var plan := Validate(request, Discover(env.packRoot));
            var accepted := plan.confirm ==> answers != [] && IsYes(answers[0]);
            var rest := if plan.confirm && answers != [] then answers[1..] else answers;
            var p := PublishAll(plan.langs, force, env.PackLayout(), Run(rest, env.existing, [], [], [], [], pre));
            var r := Publish(request, force, env, answers, pre);
            plan.unknown == [] && accepted ==>
              && r.status == (if p.Going? then Exit(1) else OutOfInput)
              && r.copied == p.run.copied && r.created == p.run.created && r.infos == p.run.infos
              && r.warns == p.run.warns && r.errors == p.run.errors
  {
    var plan := Validate(request, Discover(env.packRoot));
    if plan.unknown == [] {
      assert pre + NotFound(plan.unknown) == pre;
    }
  }

  /**
    Publishing with `--force`: once the request is valid and confirmed, and
    no German language with its register question is involved, every file
    of every requested language is copied in order, with one info each,
    no warning, no new error, and exit 1.
   */
  lemma ForcePublishesEverything(request: string, env: Env, answers: seq<string>, pre: seq<Msg>)
    requires var plan := Validate(request, Discover(env.packRoot));
             && plan.unknown == []
             && (plan.confirm ==> answers != [] && IsYes(answers[0]))
             && (forall l :: l in plan.langs ==> !German(l))
             && (forall l :: l in plan.langs ==> SourcesPresent(env.PackLayout(), Formal, l, env.existing))
    ensures var plan := Validate(request, Discover(env.packRoot));
            var r := Publish(request, true, env, answers, pre);
            && r.status == Exit(1)
            && r.copied == FormalJobs(env.PackLayout(), plan.langs)
            && |r.infos| == |r.copied|
            && r.warns == []
            && r.errors == pre
  {
    var plan := Validate(request, Discover(env.packRoot));
    var rest := if plan.confirm then answers[1..] else answers;
    assert pre + NotFound(plan.unknown) == pre;
    PublishAllForced(plan.langs, env.PackLayout(), Run(rest, env.existing, [], [], [], [], pre));
  }

  /**
    Requesting `all` when no language directory is found still asks the
    publish-all confirmation (0 entries against 0 languages) and, once it is
    accepted, runs an empty copy loop and returns 1.
   */
  lemma AllWithNothingDiscovered(force: bool, packDir: string, resourceDir: string, existing: set<string>, rest: seq<string>)
    ensures var r := Publish(All, force, Env(Some([]), packDir, resourceDir, existing), ["y"] + rest, []);
            && r.status == Exit(1)
            && r.copied == [] && r.errors == []
  {
    var env := Env(Some([]), packDir, resourceDir, existing);
    JoinSplit([All], ',');
    assert Split(All, ',') == [All];
    var plan := Validate(All, Discover(env.packRoot));
    assert plan.langs == [] && plan.confirm && plan.unknown == [];
    assert IsYes("y");
  }

  /**
    `handle`. Without a usable `--languages` value the pack root is listed
    (an error when it is not a directory) and the request is asked for; an
    empty or "0" answer cancels with exit 0.
   */
  function Handle(opts: Options, env: Env, answers: seq<string>): (r: Report)
    ensures r.status.Exit? ==> r.status.code == 0 || r.status.code == 1
    ensures r.status == Exit(0) ==> r.copied == [] && r.created == [] && r.infos == [] && r.warns == []
    ensures InfoPerCopy(r.copied, r.infos)
    ensures (opts.languages.None? || Falsy(opts.languages.value)) ==>
              && (answers == [] ==> r.status == OutOfInput && r.copied == [])
              && (answers != [] && Falsy(answers[0]) ==> r.status == Exit(0) && Canceled in r.errors)
              && (env.packRoot.None? ==> |r.errors| >= 1 && r.errors[0] == FolderUnresolved)
    ensures opts.languages.Some? && !Falsy(opts.languages.value) ==>
              r == Publish(opts.languages.value, opts.force, env, answers, [])
    ensures (opts.languages.None? || Falsy(opts.languages.value)) && answers != [] && !Falsy(answers[0]) ==>
              r == Publish(answers[0], opts.force, env, answers[1..], if env.packRoot.None? then [FolderUnresolved] else [])
  {
    if opts.languages.Some? && !Falsy(opts.languages.value) then
      Publish(opts.languages.value, opts.force, env, answers, [])
    else
      var pre := if env.packRoot.None? then [FolderUnresolved] else [];
      if answers == [] then Halt(OutOfInput, pre)
      else if Falsy(answers[0]) then Halt(Exit(0), pre + [Canceled])
      else Publish(answers[0], opts.force, env, answers[1..], pre)
  }
}

=== FILE: maybe.dfy ===
/** The optional value used wherever the command may have nothing to report. */
module Maybe {

  datatype Option<+T> = None | Some(value: T)
}

=== FILE: paths.dfy ===
/**
  Where each published file comes from and where it goes (the source and
  target expressions of the copy loop in `handle`).
 */
module Paths {

  /** German register: the formal "Sie" default, or the informal "du" variant kept under `_alt`. */
  datatype Register = Formal | Informal

  /**
    The three directories the paths are built from: the pack root of the
    PHP sources (`__DIR__`), the root of the JSON sources (`__DIR__/../json`)
    and the application's resource directory (the base of `resource_path`).
   */
  datatype Layout = Layout(phpRoot: string, jsonRoot: string, resourceDir: string)
  {
    /** The layout whose roots are the `_alt` subtrees of this one. */
    function Alt(): Layout
    {
      Layout(phpRoot + "/_alt", jsonRoot + "/_alt", resourceDir)
    }
  }

  /** One file to publish. */
  datatype Job = Job(source: string, target: string)

  /** The layout of an installed package whose sources live in `packDir`. */
  function Installed(packDir: string, resourceDir: string): Layout
  {
    Layout(packDir, packDir + "/../json", resourceDir)
  }

  /** The PHP files published for every language, in copy order. */
  const PhpFiles: seq<string> := ["auth", "pagination", "passwords", "validation"]

  /** The path piece between a source root and the language code. */
  function Subtree(reg: Register): string
  {
    match reg
    case Formal => "/"
    case Informal => "/_alt/"
  }

  /** `resource_path(rel)`. */
  function ResourcePath(layout: Layout, rel: string): string
  {
    layout.resourceDir + "/" + rel
  }

  /** The directory created for a language before its files are copied. */
  function LangDir(layout: Layout, lang: string): string
  {
    ResourcePath(layout, "lang/" + lang)
  }

  function PhpJob(layout: Layout, reg: Register, lang: string, file: string): Job
  {
    Job(layout.phpRoot + Subtree(reg) + lang + "/" + file + ".php",
        ResourcePath(layout, "lang/" + lang + "/" + file + ".php"))
  }

  function JsonJob(layout: Layout, reg: Register, lang: string): Job
  {
    Job(layout.jsonRoot + Subtree(reg) + lang + ".json",
        ResourcePath(layout, "lang/" + lang + ".json"))
  }

  /** The five files of one language: the four PHP files in order, then the JSON file. */
  function Jobs(layout: Layout, reg: Register, lang: string): (jobs: seq<Job>)
    ensures |jobs| == |PhpFiles| + 1
  {
    [ PhpJob(layout, reg, lang, PhpFiles[0]),
      PhpJob(layout, reg, lang, PhpFiles[1]),
      PhpJob(layout, reg, lang, PhpFiles[2]),
      PhpJob(layout, reg, lang, PhpFiles[3]),
      JsonJob(layout, reg, lang) ]
  }

  /** Where the five files of a language are installed, in copy order. */
  function Targets(layout: Layout, lang: string): seq<string>
  {
    [ ResourcePath(layout, "lang/" + lang + "/" + PhpFiles[0] + ".php"),
      ResourcePath(layout, "lang/" + lang + "/" + PhpFiles[1] + ".php"),
      ResourcePath(layout, "lang/" + lang + "/" + PhpFiles[2] + ".php"),
      ResourcePath(layout, "lang/" + lang + "/" + PhpFiles[3] + ".php"),
      ResourcePath(layout, "lang/" + lang + ".json") ]
  }

  /**
    The register only moves the sources: the informal sources are the formal
    sources of the `_alt` subtrees, for the PHP files and the JSON file alike,
    and the targets are the same whatever the register.
   */
  lemma RegisterMovesSourcesOnly(layout: Layout, lang: string)
    ensures Jobs(layout, Informal, lang) == Jobs(layout.Alt(), Formal, lang)
    ensures forall reg: Register, i :: 0 <= i < |Jobs(layout, reg, lang)| ==>
              Jobs(layout, reg, lang)[i].target == Targets(layout, lang)[i]
  {
    AltSubtree(layout.phpRoot);
    AltSubtree(layout.jsonRoot);
  }

  /** Under the informal register a path continues from `root` through the `_alt` subtree. */
  lemma AltSubtree(root: string)
    ensures root + Subtree(Informal) == root + "/_alt" + Subtree(Formal)
  {
    assert "/_alt/" == "/_alt" + "/";
  }

  /**
    The five targets of a language are five different files, and none of
    them is the language directory created before the copies.
   */
  lemma TargetsDistinct(layout: Layout, lang: string)
    ensures forall i, k :: 0 <= i < k < |Targets(layout, lang)| ==> Targets(layout, lang)[i] != Targets(layout, lang)[k]
    ensures LangDir(layout, lang) !in Targets(layout, lang)
  {
    var t := Targets(layout, lang);
    var at := |layout.resourceDir + "/" + "lang/" + lang + "/"|;
    assert t[1] == layout.resourceDir + "/" + "lang/" + lang + "/" + "pagination.php";
    assert t[3] == layout.resourceDir + "/" + "lang/" + lang + "/" + "validation.php";
    assert t[1][at] == 'p' && t[3][at] == 'v';
  }
}

=== FILE: prompts.dfy ===
/**
  The command's questions, read from a finite stream of answers. Each
  prompt reports the value it settled on and how many answers it used, or
  that the stream ran out first (the console would then abort the run; the
  command's retry recursion would otherwise never end).
 */
module Prompts {
  import opened Text

  datatype Asked<+T> = Got(value: T, used: nat) | Exhausted

  /** "y" or "yes" in any letter case. */
  predicate IsYes(answer: string)
  {
    Lower(answer) == "y" || Lower(answer) == "yes"
  }

  /** "n" or "no" in any letter case. */
  predicate IsNo(answer: string)
  {
    Lower(answer) == "n" || Lower(answer) == "no"
  }

  /** An answer that ends the German register question: "du" in any letter case, or nothing. */
  predicate EndsGerman(answer: string)
  {
    Lower(answer) == "du" || answer == ""
  }

  /** No answer is both a yes and a no. */
  lemma YesExcludesNo(answer: string)
    ensures !(IsYes(answer) && IsNo(answer))
  {
    if IsYes(answer) {
      assert Lower(answer)[0] == 'y';
    }
  }

  /**
    The overwrite question of `askOverwrite`: answers that are neither yes
    nor no are skipped; the first yes or no decides, and `used` counts the
    answers read up to and including it.
   */
  function AskYesNo(answers: seq<string>): (r: Asked<bool>)
    ensures r.Exhausted? <==> forall i :: 0 <= i < |answers| ==> !IsYes(answers[i]) && !IsNo(answers[i])
    ensures r.Got? ==>
              && 1 <= r.used <= |answers|
              && (forall i :: 0 <= i < r.used - 1 ==> !IsYes(answers[i]) && !IsNo(answers[i]))
              && (r.value <==> IsYes(answers[r.used - 1]))
              && (!r.value <==> IsNo(answers[r.used - 1]))
  {
    if answers == [] then Exhausted
    else if IsYes(answers[0]) then
      YesExcludesNo(answers[0]);
      Got(true, 1)
    else if IsNo(answers[0]) then Got(false, 1)
    else
      match AskYesNo(answers[1..])
      case Exhausted => Exhausted
      case Got(v, n) => Got(v, n + 1)
  }

  /** The outcome of `askOverwrite` for one file. */
  datatype Decision =
    | SourceMissing
    | Overwrite(used: nat)
    | KeepExisting(used: nat)
    | Undecided

  /**
    `askOverwrite`: a missing source is reported and never asks; a target
    that does not exist yet, or the force flag, copies without asking;
    otherwise the overwrite question decides, and a no keeps the target.
   */
  function AskOverwrite(source: string, target: string, existing: set<string>, force: bool, answers: seq<string>): (d: Decision)
    ensures d.SourceMissing? <==> source !in existing
    ensures source in existing && (target !in existing || force) ==> d == Overwrite(0)
    ensures source in existing && target in existing && !force ==>
              && (d.Undecided? <==> forall i :: 0 <= i < |answers| ==> !IsYes(answers[i]) && !IsNo(answers[i]))
              && (d.Overwrite? ==> 1 <= d.used <= |answers| && IsYes(answers[d.used - 1]))
              && (d.KeepExisting? ==> 1 <= d.used <= |answers| && IsNo(answers[d.used - 1]))
              && (d.Overwrite? || d.KeepExisting? ==>
                    forall i :: 0 <= i < d.used - 1 ==> !IsYes(answers[i]) && !IsNo(answers[i]))
  {
    if source !in existing then SourceMissing
    else if target !in existing || force then Overwrite(0)
    else
      match AskYesNo(answers)
      case Exhausted => Undecided
      case Got(yes, n) => if yes then Overwrite(n) else KeepExisting(n)
  }

  /** Only `de` and `de-CH` are asked for a register. */
  predicate German(lang: string)
  {
    lang == "de" || lang == "de-CH"
  }

  /**
    `askGerman`: answers other than "du" (any case) or the empty answer are
    skipped; the first such answer is returned as given.
   */
  function AskGerman(answers: seq<string>): (r: Asked<string>)
    ensures r.Exhausted? <==> forall i :: 0 <= i < |answers| ==> !EndsGerman(answers[i])
    ensures r.Got? ==>
              && 1 <= r.used <= |answers|
              && (forall i :: 0 <= i < r.used - 1 ==> !EndsGerman(answers[i]))
              && r.value == answers[r.used - 1]
              && EndsGerman(r.value)
  {
    if answers == [] then Exhausted
    else if EndsGerman(answers[0]) then Got(answers[0], 1)
    else
      match AskGerman(answers[1..])
      case Exhausted => Exhausted
      case Got(a, n) => Got(a, n + 1)
  }
}

=== FILE: text.dfy ===
/**
  The few PHP string built-ins the command relies on: truthiness of a
  string, `strtolower`, `str_replace` of one character, `explode` on a
  one-character delimiter, and `array_unique`.
 */
module Text {

  /** A PHP string is false in a condition exactly when it is "" or "0". */
  predicate Falsy(s: string)
  {
    s == "" || s == "0"
  }

  /** `strtolower` on one character: ASCII letters only, as PHP 8.2+ does. */
  function LowerChar(c: char): char
  {
    if 'A' <= c <= 'Z' then (c as int + 32) as char else c
  }

  function Lower(s: string): (r: string)
    ensures |r| == |s|
    ensures forall i :: 0 <= i < |s| ==> r[i] == LowerChar(s[i])
  {
    if s == [] then [] else [LowerChar(s[0])] + Lower(s[1..])
  }

  /** `str_replace(a, b, s)` for single characters `a` and `b`. */
  function Replace(s: string, a: char, b: char): (r: string)
    ensures |r| == |s|
    ensures forall i :: 0 <= i < |s| ==> r[i] == (if s[i] == a then b else s[i])
  {
    if s == [] then [] else [if s[0] == a then b else s[0]] + Replace(s[1..], a, b)
  }

  /** Position of the first `c` in `s`, or `|s|` when there is none. */
  function IndexOf(s: string, c: char): (k: nat)
    ensures k <= |s|
    ensures forall i :: 0 <= i < k ==> s[i] != c
    ensures k < |s| ==> s[k] == c
  {
    if s == [] then 0
    else if s[0] == c then 0
    else IndexOf(s[1..], c) + 1
  }

  /** `implode(d, parts)`. The command never calls it; it is the inverse `SplitJoin` and `JoinSplit` use to show that `Split` loses nothing. */
  function Join(parts: seq<string>, d: char): string
  {
    if |parts| == 0 then ""
    else if |parts| == 1 then parts[0]
    else parts[0] + [d] + Join(parts[1..], d)
  }

  /** `explode(d, s)`: the pieces between delimiters, with no trimming; there is always at least one piece. */
  function Split(s: string, d: char): (parts: seq<string>)
    ensures |parts| >= 1
    ensures forall i :: 0 <= i < |parts| ==> d !in parts[i]
  {
    if s == [] then [""]
    else
      var rest := Split(s[1..], d);
      if s[0] == d then [""] + rest
      else [[s[0]] + rest[0]] + rest[1..]
  }

  /** Joining the pieces of a split with the same delimiter gives the string back. */
  lemma {:induction false} SplitJoin(s: string, d: char)
    ensures Join(Split(s, d), d) == s
  {
    if s != [] {
      var rest := Split(s[1..], d);
      SplitJoin(s[1..], d);
      if s[0] == d {
        assert ([""] + rest)[1..] == rest;
      } else {
        var parts := [[s[0]] + rest[0]] + rest[1..];
        if |rest| == 1 {
          assert s == [s[0]] + s[1..];
        } else {
          assert parts[1..] == rest[1..];
          assert Join(rest, d) == rest[0] + [d] + Join(rest[1..], d);
          assert s == [s[0]] + s[1..];
        }
      }
    }
  }

  /** A prefix free of the delimiter glues onto the first piece. */
  lemma {:induction false} SplitGlue(p: string, s: string, d: char)
    requires d !in p
    ensures Split(p + s, d) == [p + Split(s, d)[0]] + Split(s, d)[1..]
  {
    if p != [] {
      var pieces := Split(s, d);
      SplitGlue(p[1..], s, d);
      assert (p + s)[0] == p[0] && (p + s)[1..] == p[1..] + s;
      var rest := Split(p[1..] + s, d);
      assert rest == [p[1..] + pieces[0]] + pieces[1..];
      assert Split(p + s, d) == [[p[0]] + rest[0]] + rest[1..];
      assert [p[0]] + (p[1..] + pieces[0]) == p + pieces[0];
    } else {
      var pieces := Split(s, d);
      assert p + s == s && p + pieces[0] == pieces[0];
      assert pieces == [pieces[0]] + pieces[1..];
    }
  }

  /** Splitting a join of delimiter-free pieces gives the pieces back. */
  lemma {:induction false} JoinSplit(parts: seq<string>, d: char)
    requires |parts| >= 1
    requires forall i :: 0 <= i < |parts| ==> d !in parts[i]
    ensures Split(Join(parts, d), d) == parts
  {
    if |parts| == 1 {
      SplitGlue(parts[0], "", d);
      assert parts[0] + "" == parts[0];
    } else {
      var tail := Join(parts[1..], d);
      JoinSplit(parts[1..], d);
      assert parts[0] + [d] + tail == parts[0] + ([d] + tail);
      SplitGlue(parts[0], [d] + tail, d);
      assert ([d] + tail)[0] == d && ([d] + tail)[1..] == tail;
      assert Split([d] + tail, d) == [""] + parts[1..];
      assert parts[0] + "" == parts[0];
      assert parts == [parts[0]] + parts[1..];
    }
  }

  /**
    The first piece of a split is the text before the first delimiter, and
    there is a second piece exactly when a delimiter occurs; the pieces after
    the first are the split of what follows that delimiter.
   */
  lemma {:induction false} SplitHead(s: string, d: char)
    ensures Split(s, d)[0] == s[..IndexOf(s, d)]
    ensures |Split(s, d)| > 1 <==> IndexOf(s, d) < |s|
    ensures IndexOf(s, d) < |s| ==> Split(s, d)[1..] == Split(s[IndexOf(s, d) + 1..], d)
  {
    var k := IndexOf(s, d);
    var head := s[..k];
    assert s == head + s[k..];
    SplitGlue(head, s[k..], d);
    if k < |s| {
      assert s[k..] == [d] + s[k + 1..];
      assert Split(s[k..], d) == [""] + Split(s[k + 1..], d);
      assert head + "" == head;
    } else {
      assert s[k..] == [];
      assert head + "" == head;
    }
  }

  predicate NoDups(xs: seq<string>)
  {
    forall i, j :: 0 <= i < j < |xs| ==> xs[i] != xs[j]
  }

  /** `array_unique`: keeps the first occurrence of every value, in order. */
  function Unique(xs: seq<string>): (r: seq<string>)
    ensures NoDups(r)
    ensures forall x :: x in r <==> x in xs
    ensures |r| <= |xs|
  {
    if xs == [] then []
    else
      var init := xs[..|xs| - 1];
      var last := xs[|xs| - 1];
      assert xs == init + [last];
      var kept := Unique(init);
      if last in kept then kept else kept + [last]
  }

  /** Extending the input only appends to the result: earlier first occurrences keep their place. */
  lemma {:induction false} UniqueExtends(xs: seq<string>, ys: seq<string>)
    ensures Unique(xs) <= Unique(xs + ys)
    decreases |ys|
  {
    if ys == [] {
      assert xs + ys == xs;
    } else {
      var ys' := ys[..|ys| - 1];
      UniqueExtends(xs, ys');
      assert (xs + ys)[..|xs + ys| - 1] == xs + ys';
    }
  }

  /** On a list without repeats `array_unique` changes nothing. */
  lemma {:induction false} UniqueOfDistinct(xs: seq<string>)
    requires NoDups(xs)
    ensures Unique(xs) == xs
  {
    if xs != [] {
      var init := xs[..|xs| - 1];
      assert NoDups(init);
      UniqueOfDistinct(init);
      assert xs == init + [xs[|xs| - 1]];
    }
  }

  /** Drops every element listed in `drop`, keeping the order of the rest. */
  function Exclude(xs: seq<string>, drop: seq<string>): (r: seq<string>)
    ensures |r| <= |xs|
  {
    if xs == [] then []
    else (if xs[0] in drop then [] else [xs[0]]) + Exclude(xs[1..], drop)
  }

  /** What is kept is exactly what is not dropped. */
  lemma {:induction false} ExcludeMembers(xs: seq<string>, drop: seq<string>)
    ensures forall x :: x in Exclude(xs, drop) <==> x in xs && x !in drop
  {
    if xs != [] {
      ExcludeMembers(xs[1..], drop);
      assert xs == [xs[0]] + xs[1..];
    }
  }

  /** Every value not excluded is kept as many times as it occurs. */
  lemma {:induction false} ExcludeCounts(xs: seq<string>, drop: seq<string>, y: string)
    requires y !in drop
    ensures multiset(Exclude(xs, drop))[y] == multiset(xs)[y]
  {
    if xs != [] {
      ExcludeCounts(xs[1..], drop, y);
      assert xs == [xs[0]] + xs[1..];
      var head := if xs[0] in drop then [] else [xs[0]];
      assert multiset(head + Exclude(xs[1..], drop)) == multiset(head) + multiset(Exclude(xs[1..], drop));
      assert multiset(xs) == multiset([xs[0]]) + multiset(xs[1..]);
    }
  }

  /** Exclusion distributes over concatenation, so the relative order of what is kept is unchanged. */
  lemma {:induction false} ExcludeAppend(xs: seq<string>, ys: seq<string>, drop: seq<string>)
    ensures Exclude(xs + ys, drop) == Exclude(xs, drop) + Exclude(ys, drop)
  {
    if xs != [] {
      ExcludeAppend(xs[1..], ys, drop);
      assert (xs + ys)[0] == xs[0] && (xs + ys)[1..] == xs[1..] + ys;
      var head := if xs[0] in drop then [] else [xs[0]];
      assert Exclude(xs + ys, drop) == head + Exclude(xs[1..] + ys, drop);
      assert Exclude(xs, drop) == head + Exclude(xs[1..], drop);
    } else {
      assert xs + ys == ys;
      assert Exclude(xs, drop) == [];
    }
  }
}
